=== FILE: README.md ===
# Token authentication for Nancy, modelled in Dafny

This project models the core of Nancy's token authentication: a
before-request guard that looks for `Authorization: Token <credential>` in
either the request header or the query string, hands the credential to a
pluggable tokenizer, and stores the identity the tokenizer returns as the
context's current user. It never answers a request itself.

- `base.dfy` (`Base`): `Option` (a .NET `null` is `None`), `Result`, and
  the one exception of the core, `ArgumentNull` (`ArgumentNullException`,
  which is an `ArgumentException`).
- `text.dfy` (`Text`): splitting on a separator with `Join` as its inverse,
  and ASCII case-insensitive key comparison.
- `token_source.dfy` (`TokenSources`): the two named `TokenSource` cases
  and the `Authorization` key name.
- `configuration.dfy` (`Configurations`): `TokenAuthenticationConfiguration`
  as an immutable record with a checked constructor `Create` that returns a
  `Result`, and the public `TokenSource` setter. The tokenizer setter is
  private, so the setter is the only change a configuration can undergo.
- `request.dfy` (`Requests`): the part of the request context the hook
  touches (headers, query pairs, current user) and case-insensitive lookup.
- `token_authentication.dfy` (`TokenAuthentication`): locating the raw
  value, parsing `Token <credential>`, and the hook itself.
- `pipelines.dfy` (`Pipelines`): global registration on the application's
  pipelines (`ApplicationPipelines`), module registration, and running a
  before-request pipeline. Configurations are held by reference in a
  `Store`, so a source changed after registration is seen by the hook.
- `fixture.dfy` (`FixtureScenarios`): the scenarios of the hook's test
  fixture, each proved for every tokenizer behaviour.

The hook's own implementation file (`TokenAuthentication.cs`) is not part of
this model. The hook is defined here so that every assertion of
`TokenAuthenticationFixture.cs` holds of it. Where that fixture is silent, the
model makes these choices:

- The value is split at every space. It is accepted only when there are exactly
  two parts, the first is `Token` (case-sensitive) and the second is not empty.
  So double spaces, a trailing space or a missing credential are silent
  non-matches.
- Header names and query keys are looked up case-insensitively (ASCII). The
  first matching entry wins.
- When a header has several values, only the first is used.
- The tokenizer is an arbitrary function
  `(tokenizer reference, credential, context) -> Option<Identity>`. Identities
  and tokenizers are opaque references compared by identity.
- Module registration appends the token step and then the
  requires-authentication step to the module's before pipeline. Global
  registration inserts the token step at the head.

## Model

| member | source | states |
|---|---|---|
| TokenSources.AllSources | src/Nancy.Authentication.Token/TokenSource.cs:6-16 | the enumeration has exactly two distinct cases and every source is one of them |
| Configurations.Create | src/Nancy.Authentication.Token/TokenAuthenticationConfiguration.cs:15-24 | construction fails exactly when the tokenizer is null, with `ArgumentNull("tokenizer")`; otherwise the tokenizer is the argument and the source is the one given, `Header` by default |
| Configurations.CreateRejectsNullTokenizer | src/Nancy.Authentication.Token.Tests/TokenAuthenticationConfigurationFixture.cs:14-19 | a null tokenizer is refused with an argument exception whatever the source |
| Configurations.CreateDefaultsToHeader | src/Nancy.Authentication.Token.Tests/TokenAuthenticationConfigurationFixture.cs:22-27 | without a source argument the configuration reads `Header` and holds the given tokenizer |
| Configurations.SetTokenSource | src/Nancy.Authentication.Token/TokenAuthenticationConfiguration.cs:34 | the setter changes the source to the new value and leaves the tokenizer as it was |
| Configurations.ReconfigurationKeepsTokenizer | src/Nancy.Authentication.Token/TokenAuthenticationConfiguration.cs:29-34 | after any sequence of source changes the tokenizer is still the constructed one and the source is the last one set |
| Text.Lower | src/Nancy.Authentication.Token.Tests/TokenAuthenticationFixture.cs:142-156 | lower-casing keeps the length and leaves no upper-case ASCII letter |
| Text.LowerIdempotent | src/Nancy.Authentication.Token.Tests/TokenAuthenticationFixture.cs:142-156 | lower-casing twice is lower-casing once, so every key equals its lower-case spelling ignoring case |
| Text.EqualsIgnoreCaseIsEquivalence | src/Nancy.Authentication.Token.Tests/TokenAuthenticationFixture.cs:142-156 | comparing keys ignoring case is reflexive, symmetric and transitive |
| Requests.Find | src/Nancy.Authentication.Token.Tests/TokenAuthenticationFixture.cs:142-156 | lookup finds a value exactly when some key matches ignoring case, and then it is the value of the first matching entry |
| Requests.FindFirstMatch | src/Nancy.Authentication.Token.Tests/TokenAuthenticationFixture.cs:142-156 | conversely, the first entry whose key matches ignoring case is the one found |
| Requests.FindIgnoresKeyCase | src/Nancy.Authentication.Token.Tests/TokenAuthenticationFixture.cs:142-156 | keys differing only in case find the same value, so `authorization` finds what `Authorization` does |
| TokenAuthentication.ParseAuthorization | src/Nancy.Authentication.Token.Tests/TokenAuthenticationFixture.cs:94-140 | an accepted credential is never empty and contains no space |
| TokenAuthentication.ParseAuthorizationExactly | src/Nancy.Authentication.Token.Tests/TokenAuthenticationFixture.cs:127-140 | a value parses to `c` if and only if it is `Token c` with `c` non-empty and space-free |
| TokenAuthentication.ParseFormatRoundTrip | src/Nancy.Authentication.Token.Tests/TokenAuthenticationFixture.cs:127-140 | `Token c` parses back to `c` for every valid credential `c` |
| TokenAuthentication.ForeignSchemeRejected | src/Nancy.Authentication.Token.Tests/TokenAuthenticationFixture.cs:94-125 | a value whose first word is any scheme other than `Token` is never accepted |
| TokenAuthentication.RawToken | src/Nancy.Authentication.Token/TokenSource.cs:8-15 | `Header` reads the first header named `Authorization` (in any case): the result is its first value, or nothing when it has no value; a result always comes from such a header; no such header gives nothing. `Query` yields a value exactly when an `Authorization` parameter exists, and then it is the value of the first such parameter |
| TokenAuthentication.SourceReadsOnlyItsPlace | src/Nancy.Authentication.Token/TokenSource.cs:8-15 | the header source ignores the query string and the query source ignores the headers |
| TokenAuthentication.Credential | src/Nancy.Authentication.Token.Tests/TokenAuthenticationFixture.cs:127-156 | the credential handed to the tokenizer is `c` exactly when the located raw value is `Token c` with `c` valid; in every other case the tokenizer is not called |
| TokenAuthentication.Hook | src/Nancy.Authentication.Token.Tests/TokenAuthenticationFixture.cs:74-205 | the hook never returns a response, never changes the request, and changes the current user only to what the tokenizer returned for the request's credential and context |
| TokenAuthentication.NoCredentialLeavesContext | src/Nancy.Authentication.Token.Tests/TokenAuthenticationFixture.cs:74-125 | without a usable credential the context is unchanged and no response is produced |
| TokenAuthentication.MissingAuthorizationLeavesContext | src/Nancy.Authentication.Token.Tests/TokenAuthenticationFixture.cs:74-92 | with neither an `Authorization` header nor parameter the hook changes nothing, for either source |
| TokenAuthentication.ReturnedIdentityBecomesCurrentUser | src/Nancy.Authentication.Token.Tests/TokenAuthenticationFixture.cs:158-205 | an identity returned by the tokenizer becomes the current user, the same instance, and nothing else changes |
| TokenAuthentication.DeclinedTokenKeepsCurrentUser | src/Nancy.Authentication.Token.Tests/TokenAuthenticationFixture.cs:158-205 | when the tokenizer declines, a current user set earlier is kept |
| TokenAuthentication.HookIdempotent | src/Nancy.Authentication.Token.Tests/TokenAuthenticationFixture.cs:158-205 | running the hook twice ends where running it once does, for a tokenizer whose answer ignores the current user |
| TokenAuthentication.HeaderTokenReachesTokenizer | src/Nancy.Authentication.Token.Tests/TokenAuthenticationFixture.cs:127-140 | when the first `Authorization` header's first value is `Token c`, the tokenizer receives `c`, for every valid `c` |
| TokenAuthentication.QueryTokenReachesTokenizer | src/Nancy.Authentication.Token.Tests/TokenAuthenticationFixture.cs:142-156 | when the first parameter keyed `Authorization` in any case spelling holds `Token c`, the tokenizer receives `c`, for every valid `c` |
| Pipelines.SetSource | src/Nancy.Authentication.Token/TokenAuthenticationConfiguration.cs:34 | changing the source through a reference changes only that configuration's source; its tokenizer and every other configuration are untouched |
| Pipelines.RequiresAuthentication | src/Nancy.Authentication.Token.Tests/TokenAuthenticationFixture.cs:41-52 | the requires-authentication step stops the request exactly when there is no current user, and changes nothing |
| Pipelines.Invoke | src/Nancy.Authentication.Token.Tests/TokenAuthenticationFixture.cs:86-87 | a pipeline is stopped only by a step other than the token hook, and without host steps the request is unchanged |
| Pipelines.InvokeAppend | src/Nancy.Authentication.Token.Tests/TokenAuthenticationFixture.cs:86-87 | running two step sequences back to back is running the second on the context the first leaves, unless the first already answered |
| Pipelines.EnableGlobal | src/Nancy.Authentication.Token.Tests/TokenAuthenticationFixture.cs:27-62 | a null configuration throws `ArgumentNull`; otherwise exactly one token step is added, at the start, and the rest of the pipeline is kept in order |
| Pipelines.EnableModule | src/Nancy.Authentication.Token.Tests/TokenAuthenticationFixture.cs:41-72 | a null configuration throws `ArgumentNull`; otherwise exactly two steps are added, the token step and the requires-authentication step. The fixture checks only the count on a fresh module; placing them after the existing steps, token step first, is the modelling choice stated above |
| Pipelines.GlobalHookRunsFirst | src/Nancy.Authentication.Token.Tests/TokenAuthenticationFixture.cs:27-39 | after global registration every step already present sees the context the hook leaves |
| Pipelines.ModuleRequiresIdentity | src/Nancy.Authentication.Token.Tests/TokenAuthenticationFixture.cs:41-52 | in any module with the hook enabled, a request is stopped exactly when an earlier step of the module stops it or when the hook, run on the context those steps leave, leaves no current user; a request that goes through carries the context the hook left |
| Pipelines.ReconfigurationSeenByHook | src/Nancy.Authentication.Token.Tests/TokenAuthenticationFixture.cs:74-92 | a hook registered before the source is changed runs with the new source and the original tokenizer |
| FixtureScenarios.EnabledSteps | src/Nancy.Authentication.Token.Tests/TokenAuthenticationFixture.cs:20-25 | enabling on fresh pipelines leaves exactly one step, the token step |
| FixtureScenarios.EnabledPipelineRunsHook | src/Nancy.Authentication.Token.Tests/TokenAuthenticationFixture.cs:20-25 | invoking that pipeline is running the hook with the configuration as it currently is |
| FixtureScenarios.NoAuthorizationSetsNoUser | src/Nancy.Authentication.Token.Tests/TokenAuthenticationFixture.cs:74-92 | for either source, a bare request gets no user and no response |
| FixtureScenarios.ForeignSchemeInHeaderSetsNoUser | src/Nancy.Authentication.Token.Tests/TokenAuthenticationFixture.cs:94-108 | header `FooScheme A-FAKE-TOKEN` gets no user and no response |
| FixtureScenarios.ForeignSchemeInQuerySetsNoUser | src/Nancy.Authentication.Token.Tests/TokenAuthenticationFixture.cs:110-125 | query `Authorization=FooScheme A-FAKE-TOKEN` gets no user and no response |
| FixtureScenarios.HeaderTokenPassedToTokenizer | src/Nancy.Authentication.Token.Tests/TokenAuthenticationFixture.cs:127-140 | after enabling and setting the source to `Header`, running the pipeline on `Authorization: Token mytoken` asks the configured tokenizer about `mytoken` in that same context, and the outcome is its answer |
| FixtureScenarios.LowerCaseQueryKeyPassedToTokenizer | src/Nancy.Authentication.Token.Tests/TokenAuthenticationFixture.cs:142-156 | after enabling and setting the source to `Query`, running the pipeline on `authorization=Token querytoken` asks the configured tokenizer about `querytoken` in that same context, and the outcome is its answer |
| FixtureScenarios.HeaderTokenSetsUser | src/Nancy.Authentication.Token.Tests/TokenAuthenticationFixture.cs:158-180 | when the tokenizer maps `mytoken` in this context to a user, that user becomes the current user |
| FixtureScenarios.QueryTokenSetsUser | src/Nancy.Authentication.Token.Tests/TokenAuthenticationFixture.cs:182-205 | the same through the `Authorization` query parameter |

## Left out

- `TokenSource` values other than `Header` and `Query`: a C# enum variable
  can hold an unnamed value such as `(TokenSource)2`, and neither the
  constructor nor the setter checks it. Such values are programming errors,
  so the datatype has only the two named cases.
- The tokenizer's own decoding and trust decision: it is external, so the
  model takes it as an arbitrary function parameter.
- Exceptions thrown by the tokenizer: they pass through the hook to the host's
  error handling, which is outside the core.
- The asynchronous form of the pipeline and the cancellation token: the model
  is synchronous.
- Concurrent reconfiguration while requests are in flight: each pipeline run
  reads the configuration store once, at that point.
- Counting how often the tokenizer is called: the hook applies the tokenizer
  at most once by construction. "Called with" is stated as the credential and
  context the hook passes.
- The after and error pipelines of the host and of modules: registration
  touches only before-request pipelines.
- The HTTP form of the requires-authentication rejection (a 401 response):
  it is modelled as the single response `Unauthorized`.
- What host steps do: that is a parameter of `Invoke`.
- Query-string decoding (`key=value&...`, percent-escapes): the query is
  modelled already parsed into pairs.
- Whitespace other than the space character: it does not separate scheme and
  credential.
- Case folding beyond ASCII letters: keys are compared after ASCII
  lower-casing only.

=== FILE: base.dfy ===
/** The Option and Result types shared by the whole model. */
module Base {

  /** A value or nothing; `None` stands for a .NET `null` reference. */
  datatype Option<+T> = None | Some(value: T)

  /** The exceptions the core raises while being set up. `ArgumentNull` is
      .NET's `ArgumentNullException`, a subclass of `ArgumentException`;
      `paramName` is the name of the offending parameter. */
  datatype Error = ArgumentNull(paramName: string)

  /** The outcome of a call that either returns a value or throws. */
  datatype Result<+R> = Success(value: R) | Failure(error: Error)
}

=== FILE: configuration.dfy ===
/** The configuration object: a tokenizer fixed at construction and a token
    source that may be changed later. */
module Configurations {
  import opened Base
  import opened TokenSources

  /** A reference to the integrator's tokenizer object. The model never looks
      inside it; what it does is a parameter of the hook. */
  datatype TokenizerRef = TokenizerRef(handle: nat)

  /** A constructed configuration. The tokenizer field is not optional: a
      configuration with a null tokenizer cannot exist. */
  datatype Configuration = Configuration(tokenizer: TokenizerRef, tokenSource: TokenSource)

  /** The constructor: rejects a null tokenizer eagerly; the source defaults
      to `Header`. */
  function Create(tokenizer: Option<TokenizerRef>, tokenSource: TokenSource := DefaultTokenSource): (r: Result<Configuration>)
    ensures r.Failure? <==> tokenizer.None?
    ensures r.Failure? ==> r.error == ArgumentNull("tokenizer")
    ensures r.Success? ==> r.value.tokenizer == tokenizer.value && r.value.tokenSource == tokenSource
  {
    match tokenizer
    case None => Failure(ArgumentNull("tokenizer"))
    case Some(t) => Success(Configuration(t, tokenSource))
  }

  /** The public `TokenSource` setter. */
  function SetTokenSource(c: Configuration, source: TokenSource): (r: Configuration)
    ensures r.tokenSource == source
    ensures r.tokenizer == c.tokenizer
  {
    c.(tokenSource := source)
  }

  /** Any number of calls of the only public setter, in order. The tokenizer
      setter is private, so these are all the changes a configuration can
      undergo after construction. */
  function SetTokenSources(c: Configuration, sources: seq<TokenSource>): Configuration
    decreases |sources|
  {
    if |sources| == 0 then c else SetTokenSources(SetTokenSource(c, sources[0]), sources[1..])
  }

  /** After any sequence of reconfigurations the tokenizer is the one given
      at construction and the source is the one set last. */
  lemma {:induction false} ReconfigurationKeepsTokenizer(c: Configuration, sources: seq<TokenSource>)
    ensures SetTokenSources(c, sources).tokenizer == c.tokenizer
    ensures SetTokenSources(c, sources).tokenSource == if |sources| == 0 then c.tokenSource else sources[|sources| - 1]
    decreases |sources|
  {
    if |sources| > 0 {
      var rest := sources[1..];
      ReconfigurationKeepsTokenizer(SetTokenSource(c, sources[0]), rest);
      if |rest| > 0 {
        assert rest[|rest| - 1] == sources[|sources| - 1];
      }
    }
  }

  /** Constructing without a source gives `Header`, and the tokenizer given. */
  lemma CreateDefaultsToHeader(t: TokenizerRef)
    ensures Create(Some(t)) == Success(Configuration(t, Header))
  {
  }

  /** A null tokenizer is always refused, whatever source is asked for. */
  lemma CreateRejectsNullTokenizer(source: TokenSource)
    ensures Create(None, source) == Failure(ArgumentNull("tokenizer"))
  {
  }
}

=== FILE: fixture.dfy ===
/** The scenarios the hook's fixture exercises, stated over the model: a
    configuration built with some tokenizer, the hook enabled on an empty
    application pipeline, the source set afterwards, and one request run
    through the pipeline. */
module FixtureScenarios {
  import opened Base
  import opened Text
  import opened TokenSources
  import opened Configurations
  import opened Requests
  import opened TokenAuthentication
  import opened Pipelines

  /** The application's before-request pipeline after enabling the hook for
      configuration `ref` on fresh pipelines. */
  function EnabledSteps(ref: ConfigRef): (steps: seq<Step>)
    ensures steps == [TokenAuthenticationStep(ref)]
  {
    EnableGlobal(ApplicationPipelines([]), Some(ref)).value.beforeRequest
  }

  /** A fresh context for a request with the given headers and query. */
  function NewContext(headers: seq<(string, seq<string>)>, query: seq<(string, string)>): Context
  {
    Context(Request(headers, query), None)
  }

  /** Running the single-hook pipeline is running the hook with the
      configuration as it is now. */
  lemma EnabledPipelineRunsHook(ref: ConfigRef, store: Store, detokenize: Detokenizer, host: HostBehaviour, ctx: Context)
    requires ref in store
    ensures Resolves(EnabledSteps(ref), store)
    ensures Invoke(EnabledSteps(ref), store, detokenize, host, ctx) == Hook(store[ref], detokenize, ctx)
  {
    assert EnabledSteps(ref)[1..] == [];
  }

  /** Without an `Authorization` header or query parameter no user is set and
      no response is produced, for either source. */
  lemma NoAuthorizationSetsNoUser(ref: ConfigRef, store: Store, source: TokenSource, detokenize: Detokenizer, host: HostBehaviour)
    requires ref in store
    ensures Resolves(EnabledSteps(ref), store)
    ensures Invoke(EnabledSteps(ref), SetSource(store, ref, source), detokenize, host, NewContext([], []))
         == StepResult(NewContext([], []), None)
  {
    var store' := SetSource(store, ref, source);
    EnabledPipelineRunsHook(ref, store', detokenize, host, NewContext([], []));
    MissingAuthorizationLeavesContext(store'[ref], detokenize, NewContext([], []));
  }

  /** A header with scheme `FooScheme` sets no user and produces no response. */
  lemma ForeignSchemeInHeaderSetsNoUser(ref: ConfigRef, store: Store, detokenize: Detokenizer, host: HostBehaviour)
    requires ref in store
    ensures Resolves(EnabledSteps(ref), store)
    ensures var ctx := NewContext([("Authorization", ["FooScheme" + " " + "A-FAKE-TOKEN"])], []);
      Invoke(EnabledSteps(ref), SetSource(store, ref, Header), detokenize, host, ctx) == StepResult(ctx, None)
  {
    var ctx := NewContext([("Authorization", ["FooScheme" + " " + "A-FAKE-TOKEN"])], []);
    var store' := SetSource(store, ref, Header);
    EnabledPipelineRunsHook(ref, store', detokenize, host, ctx);
    assert RawToken(Header, ctx.request) == Some("FooScheme" + " " + "A-FAKE-TOKEN");
    ForeignSchemeRejected("FooScheme", "A-FAKE-TOKEN");
  }

  /** A query parameter with scheme `FooScheme` sets no user and produces no
      response. */
  lemma ForeignSchemeInQuerySetsNoUser(ref: ConfigRef, store: Store, detokenize: Detokenizer, host: HostBehaviour)
    requires ref in store
    ensures Resolves(EnabledSteps(ref), store)
    ensures var ctx := NewContext([], [("Authorization", "FooScheme" + " " + "A-FAKE-TOKEN")]);
      Invoke(EnabledSteps(ref), SetSource(store, ref, Query), detokenize, host, ctx) == StepResult(ctx, None)
  {
    var ctx := NewContext([], [("Authorization", "FooScheme" + " " + "A-FAKE-TOKEN")]);
    var store' := SetSource(store, ref, Query);
    EnabledPipelineRunsHook(ref, store', detokenize, host, ctx);
    assert RawToken(Query, ctx.request) == Some("FooScheme" + " " + "A-FAKE-TOKEN");
    ForeignSchemeRejected("FooScheme", "A-FAKE-TOKEN");
  }

  /** What the hook leaves when the tokenizer is asked about `credential`
      in `ctx`: the identity it returns as current user, or `ctx` as it was. */
  function AfterTokenizer(detokenize: Detokenizer, tokenizer: TokenizerRef, credential: string, ctx: Context): StepResult
  {
    match detokenize(tokenizer, credential, ctx)
    case Some(user) => StepResult(ctx.(currentUser := Some(user)), None)
    case None => StepResult(ctx, None)
  }

  /** With the source set to `Header`, `Authorization: Token mytoken` makes
      the pipeline ask the configured tokenizer about `mytoken` in this very
      context, and the outcome is whatever the tokenizer answers. */
  lemma HeaderTokenPassedToTokenizer(ref: ConfigRef, store: Store, detokenize: Detokenizer, host: HostBehaviour)
    requires ref in store
    ensures Resolves(EnabledSteps(ref), store)
    ensures var ctx := NewContext([("Authorization", ["Token" + " " + "mytoken"])], []);
      Invoke(EnabledSteps(ref), SetSource(store, ref, Header), detokenize, host, ctx)
        == AfterTokenizer(detokenize, store[ref].tokenizer, "mytoken", ctx)
  {
    var ctx := NewContext([("Authorization", ["Token" + " " + "mytoken"])], []);
    var store' := SetSource(store, ref, Header);
    EnabledPipelineRunsHook(ref, store', detokenize, host, ctx);
    assert Format("mytoken") == "Token" + " " + "mytoken";
    assert EqualsIgnoreCase(ctx.request.headers[0].0, AuthorizationKey);
    HeaderTokenReachesTokenizer(ctx.request, 0, "mytoken");
  }

  /** With the source set to `Query`, the lower-case key
      `authorization=Token querytoken` makes the pipeline ask the configured
      tokenizer about `querytoken` in this very context. */
  lemma LowerCaseQueryKeyPassedToTokenizer(ref: ConfigRef, store: Store, detokenize: Detokenizer, host: HostBehaviour)
    requires ref in store
    ensures Resolves(EnabledSteps(ref), store)
    ensures var ctx := NewContext([], [("authorization", "Token" + " " + "querytoken")]);
      Invoke(EnabledSteps(ref), SetSource(store, ref, Query), detokenize, host, ctx)
        == AfterTokenizer(detokenize, store[ref].tokenizer, "querytoken", ctx)
  {
    var ctx := NewContext([], [("authorization", "Token" + " " + "querytoken")]);
    var store' := SetSource(store, ref, Query);
    EnabledPipelineRunsHook(ref, store', detokenize, host, ctx);
    assert Lower("authorization") == Lower(AuthorizationKey);
    QueryTokenReachesTokenizer(ctx.request, 0, "querytoken");
  }

  /** When the tokenizer maps `mytoken` in this context to a user, that very
      user becomes the context's current user. */
  lemma HeaderTokenSetsUser(tokenizer: TokenizerRef, store: Store, ref: ConfigRef, detokenize: Detokenizer, host: HostBehaviour, user: Identity)
    requires store == map[ref := Create(Some(tokenizer), Header).value]
    requires detokenize(tokenizer, "mytoken", NewContext([("Authorization", ["Token" + " " + "mytoken"])], [])) == Some(user)
    ensures Resolves(EnabledSteps(ref), store)
    ensures Invoke(EnabledSteps(ref), store, detokenize, host, NewContext([("Authorization", ["Token" + " " + "mytoken"])], [])).context.currentUser
         == Some(user)
  {
    var ctx := NewContext([("Authorization", ["Token" + " " + "mytoken"])], []);
    EnabledPipelineRunsHook(ref, store, detokenize, host, ctx);
    assert EqualsIgnoreCase(ctx.request.headers[0].0, AuthorizationKey);
    HeaderTokenReachesTokenizer(ctx.request, 0, "mytoken");
    ReturnedIdentityBecomesCurrentUser(store[ref], detokenize, ctx, "mytoken", user);
  }

  /** The same through the `Authorization` query parameter. */
  lemma QueryTokenSetsUser(tokenizer: TokenizerRef, store: Store, ref: ConfigRef, detokenize: Detokenizer, host: HostBehaviour, user: Identity)
    requires store == map[ref := Create(Some(tokenizer), Query).value]
    requires detokenize(tokenizer, "querytoken", NewContext([], [("Authorization", "Token" + " " + "querytoken")])) == Some(user)
    ensures Resolves(EnabledSteps(ref), store)
    ensures Invoke(EnabledSteps(ref), store, detokenize, host, NewContext([], [("Authorization", "Token" + " " + "querytoken")])).context.currentUser
         == Some(user)
  {
    var ctx := NewContext([], [("Authorization", "Token" + " " + "querytoken")]);
    EnabledPipelineRunsHook(ref, store, detokenize, host, ctx);
    QueryTokenReachesTokenizer(ctx.request, 0, "querytoken");
    ReturnedIdentityBecomesCurrentUser(store[ref], detokenize, ctx, "querytoken", user);
  }
}

=== FILE: pipelines.dfy ===
/** Registration of the hook with the host: globally at the head of the
    application's before-request pipeline, or in one module together with
    the requires-authentication step; and running a before-request
    pipeline. */
module Pipelines {
  import opened Base
  import opened TokenSources
  import opened Configurations
  import opened Requests
  import opened TokenAuthentication

  /** A reference to a configuration object. A registered hook keeps the
      reference, not a copy, so a later change of the source is seen by it. */
  type ConfigRef = nat

  /** The configuration objects alive in the application. */
  type Store = map<ConfigRef, Configuration>

  /** A before-request step: the token hook bound to its configuration, the
      requires-authentication check, or some step of the host's own. */
  datatype Step = TokenAuthenticationStep(config: ConfigRef) | RequiresAuthenticationStep | HostStep(id: nat)

  /** The application's pipelines; only the before-request one is modelled. */
  datatype ApplicationPipelines = ApplicationPipelines(beforeRequest: seq<Step>)

  /** A routing module; only its before pipeline is modelled. */
  datatype Module = Module(before: seq<Step>)

  /** What the host's own steps do; the core does not know. */
  type HostBehaviour = (nat, Context) -> StepResult

  /** Every token step refers to a configuration that exists. */
  ghost predicate Resolves(steps: seq<Step>, store: Store)
  {
    forall i :: 0 <= i < |steps| && steps[i].TokenAuthenticationStep? ==> steps[i].config in store
  }

  /** Setting the source of the configuration `ref` refers to. */
  function SetSource(store: Store, ref: ConfigRef, source: TokenSource): (r: Store)
    requires ref in store
    ensures r.Keys == store.Keys
    ensures r[ref].tokenSource == source && r[ref].tokenizer == store[ref].tokenizer
    ensures forall other :: other in store && other != ref ==> r[other] == store[other]
  {
    store[ref := SetTokenSource(store[ref], source)]
  }

  /** The module-level guard: stops the request when nobody is signed in. */
  function RequiresAuthentication(ctx: Context): (r: StepResult)
    ensures r.context == ctx
    ensures r.response.Some? <==> ctx.currentUser.None?
  {
    if ctx.currentUser.None? then StepResult(ctx, Some(Unauthorized)) else StepResult(ctx, None)
  }

  function RunStep(step: Step, store: Store, detokenize: Detokenizer, host: HostBehaviour, ctx: Context): StepResult
    requires step.TokenAuthenticationStep? ==> step.config in store
  {
    match step
    case TokenAuthenticationStep(ref) => Hook(store[ref], detokenize, ctx)
    case RequiresAuthenticationStep => RequiresAuthentication(ctx)
    case HostStep(id) => host(id, ctx)
  }

  /** Runs the steps in order and stops at the first one that answers with a
      response. Only steps other than the token hook can stop the pipeline,
      and without host steps the request itself is never changed. */
  function Invoke(steps: seq<Step>, store: Store, detokenize: Detokenizer, host: HostBehaviour, ctx: Context): (r: StepResult)
    requires Resolves(steps, store)
    ensures r.response.Some? ==> exists i :: 0 <= i < |steps| && !steps[i].TokenAuthenticationStep?
    ensures (forall i :: 0 <= i < |steps| ==> !steps[i].HostStep?) ==> r.context.request == ctx.request
    decreases |steps|
  {
    if |steps| == 0 then StepResult(ctx, None)
    else
      var first := RunStep(steps[0], store, detokenize, host, ctx);
      if first.response.Some? then first
      else
        assert forall i :: 1 <= i < |steps| ==> steps[i] == steps[1..][i - 1];
        var r := Invoke(steps[1..], store, detokenize, host, first.context);
        if r.response.Some? then
          var k :| 0 <= k < |steps[1..]| && !steps[1..][k].TokenAuthenticationStep?;
          assert !steps[k + 1].TokenAuthenticationStep?;
          r
        else
          r
  }

  /** Global registration: one token step inserted at the start of the
      application's before-request pipeline; a null configuration throws. */
  function EnableGlobal(pipelines: ApplicationPipelines, configuration: Option<ConfigRef>): (r: Result<ApplicationPipelines>)
    ensures r.Failure? <==> configuration.None?
    ensures r.Failure? ==> r.error == ArgumentNull("configuration")
    ensures r.Success? ==>
      && |r.value.beforeRequest| == |pipelines.beforeRequest| + 1
      && r.value.beforeRequest[0] == TokenAuthenticationStep(configuration.value)
      && r.value.beforeRequest[1..] == pipelines.beforeRequest
  {
    match configuration
    case None => Failure(ArgumentNull("configuration"))
    case Some(ref) => Success(ApplicationPipelines([TokenAuthenticationStep(ref)] + pipelines.beforeRequest))
  }

  /** Module registration: the token step and then the requires-authentication
      step appended to the module's before pipeline; a null configuration
      throws. */
  function EnableModule(scope: Module, configuration: Option<ConfigRef>): (r: Result<Module>)
    ensures r.Failure? <==> configuration.None?
    ensures r.Failure? ==> r.error == ArgumentNull("configuration")
    ensures r.Success? ==>
      && |r.value.before| == |scope.before| + 2
      && r.value.before[..|scope.before|] == scope.before
      && r.value.before[|scope.before|] == TokenAuthenticationStep(configuration.value)
      && r.value.before[|scope.before| + 1] == RequiresAuthenticationStep
  {
    match configuration
    case None => Failure(ArgumentNull("configuration"))
    case Some(ref) => Success(Module(scope.before + [TokenAuthenticationStep(ref), RequiresAuthenticationStep]))
  }

  /** The globally registered hook runs before everything already in the
      pipeline: those steps see the context the hook leaves. */
  lemma GlobalHookRunsFirst(pipelines: ApplicationPipelines, ref: ConfigRef, store: Store, detokenize: Detokenizer, host: HostBehaviour, ctx: Context)
    requires ref in store
    requires Resolves(pipelines.beforeRequest, store)
    ensures Resolves(EnableGlobal(pipelines, Some(ref)).value.beforeRequest, store)
    ensures Invoke(EnableGlobal(pipelines, Some(ref)).value.beforeRequest, store, detokenize, host, ctx)
         == Invoke(pipelines.beforeRequest, store, detokenize, host, Hook(store[ref], detokenize, ctx).context)
  {
  }

  /** Running two pipelines one after the other: the second runs on the
      context the first leaves, unless the first already answered. */
  lemma {:induction false} InvokeAppend(a: seq<Step>, b: seq<Step>, store: Store, detokenize: Detokenizer, host: HostBehaviour, ctx: Context)
    requires Resolves(a, store) && Resolves(b, store)
    ensures Resolves(a + b, store)
    ensures var pre := Invoke(a, store, detokenize, host, ctx);
      Invoke(a + b, store, detokenize, host, ctx)
        == if pre.response.Some? then pre else Invoke(b, store, detokenize, host, pre.context)
    decreases |a|
  {
    assert forall i :: 0 <= i < |a + b| ==> (a + b)[i] == if i < |a| then a[i] else b[i - |a|];
    if |a| == 0 {
      assert a + b == b;
    } else {
      assert (a + b)[0] == a[0] && (a + b)[1..] == a[1..] + b;
      assert forall i :: 1 <= i < |a| ==> a[i] == a[1..][i - 1];
      var first := RunStep(a[0], store, detokenize, host, ctx);
      if first.response.None? {
        InvokeAppend(a[1..], b, store, detokenize, host, first.context);
      }
    }
  }

  /** In any module with the hook enabled, a request is stopped exactly when
      one of the module's earlier steps stops it, or when the hook, running
      on the context those steps leave, leaves no current user. A request
      that goes through ends with the context the hook left. */
  lemma ModuleRequiresIdentity(scope: Module, ref: ConfigRef, store: Store, detokenize: Detokenizer, host: HostBehaviour, ctx: Context)
    requires ref in store
    requires Resolves(scope.before, store)
    ensures Resolves(EnableModule(scope, Some(ref)).value.before, store)
    ensures var pre := Invoke(scope.before, store, detokenize, host, ctx);
      var r := Invoke(EnableModule(scope, Some(ref)).value.before, store, detokenize, host, ctx);
      && (r.response.Some? <==> pre.response.Some? || Hook(store[ref], detokenize, pre.context).context.currentUser.None?)
      && (r.response.None? ==> r.context == Hook(store[ref], detokenize, pre.context).context)
  {
    var added := [TokenAuthenticationStep(ref), RequiresAuthenticationStep];
    assert EnableModule(scope, Some(ref)).value.before == scope.before + added;
    InvokeAppend(scope.before, added, store, detokenize, host, ctx);
    var pre := Invoke(scope.before, store, detokenize, host, ctx);
    assert added[1..] == [RequiresAuthenticationStep] && added[1..][1..] == [];
    if pre.response.None? {
      var hooked := Hook(store[ref], detokenize, pre.context).context;
      assert Invoke(added, store, detokenize, host, pre.context) == Invoke(added[1..], store, detokenize, host, hooked);
      assert Invoke(added[1..], store, detokenize, host, hooked) == RequiresAuthentication(hooked);
    }
  }

  /** A hook registered before its configuration's source is changed uses
      the new source. */
  lemma ReconfigurationSeenByHook(ref: ConfigRef, store: Store, source: TokenSource, detokenize: Detokenizer, host: HostBehaviour, ctx: Context)
    requires ref in store
    ensures Invoke(EnableGlobal(ApplicationPipelines([]), Some(ref)).value.beforeRequest, SetSource(store, ref, source), detokenize, host, ctx)
         == Hook(Configuration(store[ref].tokenizer, source), detokenize, ctx)
  {
  }
}

=== FILE: request.dfy ===
/** The slice of the host's request context the hook touches: the request's
    headers and query string, and the current-user slot. */
module Requests {
  import opened Base
  import opened Text

  /** An authenticated user as the tokenizer returns it. `handle` is the
      object's identity: equal handles mean the same instance. */
  datatype Identity = Identity(handle: nat)

  /** Headers map a name to zero or more values; the query string is the
      list of its `key=value` pairs in order. */
  datatype Request = Request(headers: seq<(string, seq<string>)>, query: seq<(string, string)>)

  /** The request context; `currentUser` is `None` until someone sets it. */
  datatype Context = Context(request: Request, currentUser: Option<Identity>)

  /** What a before-request step can answer with to stop the pipeline. The
      only one in this model is the rejection of an unauthenticated request;
      its HTTP form (a 401 response) is not modelled. */
  datatype Response = Unauthorized

  /** A before-request step's effect: the context it leaves and the response
      it returns (`None` lets the pipeline continue). */
  datatype StepResult = StepResult(context: Context, response: Option<Response>)

  /** Case-insensitive lookup of `key`: the value of the first entry whose
      key matches, or `None` when no entry matches. */
  function Find<V(==)>(entries: seq<(string, V)>, key: string): (r: Option<V>)
    ensures r.None? <==> forall i :: 0 <= i < |entries| ==> !EqualsIgnoreCase(entries[i].0, key)
    ensures r.Some? ==>
      exists i :: 0 <= i < |entries| && EqualsIgnoreCase(entries[i].0, key) && entries[i].1 == r.value
        && forall j :: 0 <= j < i ==> !EqualsIgnoreCase(entries[j].0, key)
    decreases |entries|
  {
    if |entries| == 0 then None
    else if EqualsIgnoreCase(entries[0].0, key) then Some(entries[0].1)
    else
      var r := Find(entries[1..], key);
      assert forall i :: 1 <= i < |entries| ==> entries[i] == entries[1..][i - 1];
      if r.Some? then
        var k :| 0 <= k < |entries[1..]| && EqualsIgnoreCase(entries[1..][k].0, key) && entries[1..][k].1 == r.value
          && forall j :: 0 <= j < k ==> !EqualsIgnoreCase(entries[1..][j].0, key);
        assert EqualsIgnoreCase(entries[k + 1].0, key) && entries[k + 1].1 == r.value;
        r
      else
        r
  }

  /** Keys that differ only in ASCII case find the same entry. */
  lemma {:induction false} FindIgnoresKeyCase<V>(entries: seq<(string, V)>, k1: string, k2: string)
    requires EqualsIgnoreCase(k1, k2)
    ensures Find(entries, k1) == Find(entries, k2)
    decreases |entries|
  {
    if |entries| > 0 {
      FindIgnoresKeyCase(entries[1..], k1, k2);
    }
  }

  /** The converse of `Find`'s contract: the first entry whose key matches
      is the one found. */
  lemma FindFirstMatch<V>(entries: seq<(string, V)>, key: string, i: nat)
    requires i < |entries| && EqualsIgnoreCase(entries[i].0, key)
    requires forall j :: 0 <= j < i ==> !EqualsIgnoreCase(entries[j].0, key)
    ensures Find(entries, key) == Some(entries[i].1)
  {
  }
}

=== FILE: text.dfy ===
/** The little string handling the hook needs: splitting a value on a
    separator, and ASCII case-insensitive comparison of keys. */
module Text {

  const Space: char := ' '

  /** Concatenates `parts`, putting `sep` between neighbours. */
  function Join(parts: seq<string>, sep: char): string
    requires |parts| > 0
    decreases |parts|
  {
    if |parts| == 1 then parts[0] else parts[0] + [sep] + Join(parts[1..], sep)
  }

  /** Splits `s` at every occurrence of `sep`. Empty parts are kept, so two
      separators in a row or a separator at either end show up as "". */
  function Split(s: string, sep: char): (parts: seq<string>)
    ensures |parts| > 0
    ensures forall i :: 0 <= i < |parts| ==> sep !in parts[i]
    ensures Join(parts, sep) == s
    decreases |s|
  {
    if |s| == 0 then [""]
    else
      var rest := Split(s[1..], sep);
      if s[0] == sep then
        [""] + rest
      else
        var first := [s[0]] + rest[0];
        assert Join([first] + rest[1..], sep) == [s[0]] + Join(rest, sep) by {
          if |rest| > 1 {
            assert ([first] + rest[1..])[1..] == rest[1..];
          }
        }
        assert s == [s[0]] + s[1..];
        [first] + rest[1..]
  }

  /** A string without the separator is a single part. */
  lemma SplitWithoutSeparator(w: string, sep: char)
    requires sep !in w
    ensures Split(w, sep) == [w]
  {
  }

  /** A leading separator produces an empty first part. */
  lemma SplitLeadingSeparator(t: string, sep: char)
    ensures Split([sep] + t, sep) == [""] + Split(t, sep)
  {
  }

  /** Splitting `w sep t` yields `w` followed by the parts of `t`. */
  lemma {:induction false} SplitAtSeparator(w: string, t: string, sep: char)
    requires sep !in w
    ensures Split(w + [sep] + t, sep) == [w] + Split(t, sep)
    decreases |w|
  {
    var s := w + [sep] + t;
    if |w| == 0 {
      assert s == [sep] + t;
      SplitLeadingSeparator(t, sep);
    } else {
      assert s[0] == w[0] && s[1..] == w[1..] + [sep] + t;
      SplitAtSeparator(w[1..], t, sep);
      var rest := Split(s[1..], sep);
      assert rest[0] == w[1..] && rest[1..] == Split(t, sep);
      assert [s[0]] + rest[0] == w;
    }
  }

  /** ASCII lower-casing of one character; every other character is kept. */
  function LowerChar(c: char): char
  {
    if 'A' <= c <= 'Z' then (c as int - 'A' as int + 'a' as int) as char else c
  }

  /** ASCII lower-casing of a string, character by character: the result
      has no upper-case ASCII letter left. */
  function Lower(s: string): (r: string)
    ensures |r| == |s|
    ensures forall i :: 0 <= i < |r| ==> !('A' <= r[i] <= 'Z')
  {
    seq(|s|, i requires 0 <= i < |s| => LowerChar(s[i]))
  }

  /** Key equality as the host's case-insensitive dictionaries compare keys. */
  predicate EqualsIgnoreCase(a: string, b: string)
  {
    Lower(a) == Lower(b)
  }

  /** Lower-casing twice changes nothing more, so every key equals its own
      lower-case form ignoring case. */
  lemma LowerIdempotent(s: string)
    ensures Lower(Lower(s)) == Lower(s)
    ensures EqualsIgnoreCase(s, Lower(s))
  {
  }

  /** Comparing keys ignoring case is an equivalence: reflexive, symmetric
      and transitive, so lookups by any spelling of a key agree. */
  lemma EqualsIgnoreCaseIsEquivalence(a: string, b: string, c: string)
    ensures EqualsIgnoreCase(a, a)
    ensures EqualsIgnoreCase(a, b) ==> EqualsIgnoreCase(b, a)
    ensures EqualsIgnoreCase(a, b) && EqualsIgnoreCase(b, c) ==> EqualsIgnoreCase(a, c)
  {
  }
}

=== FILE: token_authentication.dfy ===
/** The before-request hook: find the `Authorization` value in the configured
    place, parse `Token <credential>` out of it, hand the credential to the
    tokenizer and store the identity it returns as the current user. */
module TokenAuthentication {
  import opened Base
  import opened Text
  import opened TokenSources
  import opened Configurations
  import opened Requests

  /** The only scheme the hook accepts, compared case-sensitively. */
  const Scheme: string := "Token"

  /** What the tokenizer does: given its own reference, the raw credential
      and the request context, it returns an identity or declines. */
  type Detokenizer = (TokenizerRef, string, Context) -> Option<Identity>

  /** A credential that can stand as the second of exactly two
      space-separated parts: non-empty and free of spaces. */
  predicate ValidCredential(credential: string)
  {
    |credential| > 0 && Space !in credential
  }

  /** The wire format of an `Authorization` value: `Token <credential>`. */
  function Format(credential: string): string
  {
    Scheme + [Space] + credential
  }

  /** Splits a located value into exactly two space-separated parts and
      accepts it when the first is `Token` and the second is not empty.
      Anything else is a silent non-match, never an error. */
  function ParseAuthorization(value: string): (credential: Option<string>)
    ensures credential.Some? ==> ValidCredential(credential.value)
  {
    var parts := Split(value, Space);
    if |parts| == 2 && parts[0] == Scheme && parts[1] != "" then Some(parts[1]) else None
  }

  /** Parsing accepts exactly the values written in the wire format, and
      gives back the credential they were written with. */
  lemma ParseAuthorizationExactly(value: string, credential: string)
    ensures ParseAuthorization(value) == Some(credential) <==> value == Format(credential) && ValidCredential(credential)
  {
    if value == Format(credential) && ValidCredential(credential) {
      SplitAtSeparator(Scheme, credential, Space);
      SplitWithoutSeparator(credential, Space);
    }
    if ParseAuthorization(value) == Some(credential) {
      var parts := Split(value, Space);
      assert Join(parts, Space) == parts[0] + [Space] + Join(parts[1..], Space);
      assert parts[1..] == [credential];
    }
  }

  /** `Token c` parses to `c` for every non-empty, space-free `c`. */
  lemma ParseFormatRoundTrip(credential: string)
    requires ValidCredential(credential)
    ensures ParseAuthorization(Format(credential)) == Some(credential)
  {
    ParseAuthorizationExactly(Format(credential), credential);
  }

  /** A value whose first word is some other scheme is never accepted. */
  lemma ForeignSchemeRejected(scheme: string, rest: string)
    requires scheme != Scheme && Space !in scheme
    ensures ParseAuthorization(scheme + [Space] + rest) == None
  {
    SplitAtSeparator(scheme, rest, Space);
  }

  /** The value the configured source holds: the first value of the
      `Authorization` header, or the `Authorization` query parameter. */
  function RawToken(source: TokenSource, request: Request): (r: Option<string>)
    ensures source == Header && r.Some? ==>
      exists i :: 0 <= i < |request.headers| && EqualsIgnoreCase(request.headers[i].0, AuthorizationKey)
        && |request.headers[i].1| > 0 && request.headers[i].1[0] == r.value
    ensures source == Header && (forall i :: 0 <= i < |request.headers| ==> !EqualsIgnoreCase(request.headers[i].0, AuthorizationKey)) ==> r.None?
    ensures source == Query ==>
      (r.Some? <==> exists i :: 0 <= i < |request.query| && EqualsIgnoreCase(request.query[i].0, AuthorizationKey))
    ensures source == Query && r.Some? ==>
      exists i :: 0 <= i < |request.query| && EqualsIgnoreCase(request.query[i].0, AuthorizationKey) && request.query[i].1 == r.value
    ensures source == Header ==>
      forall i ::
        (&& 0 <= i < |request.headers| && EqualsIgnoreCase(request.headers[i].0, AuthorizationKey)
         && (forall j :: 0 <= j < i ==> !EqualsIgnoreCase(request.headers[j].0, AuthorizationKey))
         && |request.headers[i].1| > 0)
        ==> r == Some(request.headers[i].1[0])
    ensures source == Header ==>
      forall i ::
        (&& 0 <= i < |request.headers| && EqualsIgnoreCase(request.headers[i].0, AuthorizationKey)
         && (forall j :: 0 <= j < i ==> !EqualsIgnoreCase(request.headers[j].0, AuthorizationKey))
         && |request.headers[i].1| == 0)
        ==> r.None?
    ensures source == Query ==>
      forall i ::
        (&& 0 <= i < |request.query| && EqualsIgnoreCase(request.query[i].0, AuthorizationKey)
         && (forall j :: 0 <= j < i ==> !EqualsIgnoreCase(request.query[j].0, AuthorizationKey)))
        ==> r == Some(request.query[i].1)
  {
    match source
    case Header =>
      (match Find(request.headers, AuthorizationKey)
       case Some(values) => if |values| > 0 then Some(values[0]) else None
       case None => None)
    case Query => Find(request.query, AuthorizationKey)
  }

  /** The header source never looks at the query string, and the query
      source never looks at the headers. */
  lemma SourceReadsOnlyItsPlace(request: Request, headers: seq<(string, seq<string>)>, query: seq<(string, string)>)
    ensures RawToken(Header, request) == RawToken(Header, request.(query := query))
    ensures RawToken(Query, request) == RawToken(Query, request.(headers := headers))
  {
  }

  /** The credential the hook hands to the tokenizer; `None` when it does
      not call the tokenizer at all. */
  function Credential(source: TokenSource, request: Request): (credential: Option<string>)
    ensures credential.Some? ==> RawToken(source, request) == Some(Format(credential.value))
    ensures credential.Some? ==> ValidCredential(credential.value)
    ensures forall c :: RawToken(source, request) == Some(Format(c)) && ValidCredential(c) ==> credential == Some(c)
  {
    match RawToken(source, request)
    case None => None
    case Some(value) =>
      assert forall c :: ParseAuthorization(value) == Some(c) <==> value == Format(c) && ValidCredential(c) by {
        forall c ensures ParseAuthorization(value) == Some(c) <==> value == Format(c) && ValidCredential(c) {
          ParseAuthorizationExactly(value, c);
        }
      }
      ParseAuthorization(value)
  }

  /** The hook registered as a before-request step. It only ever writes the
      current-user slot, and only with what the tokenizer returned for the
      credential in the request; it never answers with a response. */
  function Hook(config: Configuration, detokenize: Detokenizer, ctx: Context): (r: StepResult)
    ensures r.response.None?
    ensures r.context.request == ctx.request
    ensures r.context.currentUser != ctx.currentUser ==>
      && Credential(config.tokenSource, ctx.request).Some?
      && r.context.currentUser == detokenize(config.tokenizer, Credential(config.tokenSource, ctx.request).value, ctx)
  {
    match Credential(config.tokenSource, ctx.request)
    case None => StepResult(ctx, None)
    case Some(credential) =>
      match detokenize(config.tokenizer, credential, ctx)
      case None => StepResult(ctx, None)
      case Some(user) => StepResult(ctx.(currentUser := Some(user)), None)
  }

  /** With no usable credential the tokenizer is not called and the context
      is left exactly as it was. */
  lemma NoCredentialLeavesContext(config: Configuration, detokenize: Detokenizer, ctx: Context)
    requires Credential(config.tokenSource, ctx.request).None?
    ensures Hook(config, detokenize, ctx) == StepResult(ctx, None)
  {
  }

  /** A request with neither an `Authorization` header nor an `Authorization`
      query parameter is left alone, whatever the source. */
  lemma MissingAuthorizationLeavesContext(config: Configuration, detokenize: Detokenizer, ctx: Context)
    requires forall i :: 0 <= i < |ctx.request.headers| ==> !EqualsIgnoreCase(ctx.request.headers[i].0, AuthorizationKey)
    requires forall i :: 0 <= i < |ctx.request.query| ==> !EqualsIgnoreCase(ctx.request.query[i].0, AuthorizationKey)
    ensures Hook(config, detokenize, ctx) == StepResult(ctx, None)
  {
  }

  /** An identity returned by the tokenizer becomes the current user, the
      very same instance; nothing else in the context changes. */
  lemma ReturnedIdentityBecomesCurrentUser(config: Configuration, detokenize: Detokenizer, ctx: Context, credential: string, user: Identity)
    requires Credential(config.tokenSource, ctx.request) == Some(credential)
    requires detokenize(config.tokenizer, credential, ctx) == Some(user)
    ensures Hook(config, detokenize, ctx) == StepResult(ctx.(currentUser := Some(user)), None)
  {
  }

  /** When the tokenizer declines, an identity set earlier by someone else
      is kept, not cleared. */
  lemma DeclinedTokenKeepsCurrentUser(config: Configuration, detokenize: Detokenizer, ctx: Context, credential: string)
    requires Credential(config.tokenSource, ctx.request) == Some(credential)
    requires detokenize(config.tokenizer, credential, ctx).None?
    ensures Hook(config, detokenize, ctx).context.currentUser == ctx.currentUser
  {
  }

  /** A tokenizer whose answer does not depend on who the current user is. */
  ghost predicate IgnoresCurrentUser(detokenize: Detokenizer, tokenizer: TokenizerRef, ctx: Context)
  {
    forall credential: string, user: Option<Identity> ::
      detokenize(tokenizer, credential, ctx.(currentUser := user)) == detokenize(tokenizer, credential, ctx)
  }

  /** Running the hook twice on the same request ends where running it once
      does, for a tokenizer that answers the same both times. */
  lemma HookIdempotent(config: Configuration, detokenize: Detokenizer, ctx: Context)
    requires IgnoresCurrentUser(detokenize, config.tokenizer, ctx)
    ensures Hook(config, detokenize, Hook(config, detokenize, ctx).context) == Hook(config, detokenize, ctx)
  {
  }

  /** When the first header whose name is `Authorization` in any case has
      `Token c` as its first value, the hook calls the tokenizer with `c`
      (and the context it was given), for every valid `c`. */
  lemma HeaderTokenReachesTokenizer(request: Request, i: nat, credential: string)
    requires ValidCredential(credential)
    requires i < |request.headers| && EqualsIgnoreCase(request.headers[i].0, AuthorizationKey)
    requires forall j :: 0 <= j < i ==> !EqualsIgnoreCase(request.headers[j].0, AuthorizationKey)
    requires |request.headers[i].1| > 0 && request.headers[i].1[0] == Format(credential)
    ensures Credential(Header, request) == Some(credential)
  {
    FindFirstMatch(request.headers, AuthorizationKey, i);
    ParseFormatRoundTrip(credential);
  }

  /** When the first query parameter whose key is `authorization` in any
      case holds `Token c`, the hook calls the tokenizer with `c`. */
  lemma QueryTokenReachesTokenizer(request: Request, i: nat, credential: string)
    requires ValidCredential(credential)
    requires i < |request.query| && EqualsIgnoreCase(request.query[i].0, AuthorizationKey)
    requires forall j :: 0 <= j < i ==> !EqualsIgnoreCase(request.query[j].0, AuthorizationKey)
    requires request.query[i].1 == Format(credential)
    ensures Credential(Query, request) == Some(credential)
  {
    FindFirstMatch(request.query, AuthorizationKey, i);
    ParseFormatRoundTrip(credential);
  }
}

=== FILE: token_source.dfy ===
/** Where in a request the authentication token is looked for. */
module TokenSources {

  /** `Header`: the `Authorization` request header.
      `Query`: the `Authorization` query-string parameter. */
  datatype TokenSource = Header | Query

  /** The name of the header, and of the query parameter, carrying the token. */
  const AuthorizationKey: string := "Authorization"

  /** The source a configuration uses when none is given. */
  const DefaultTokenSource: TokenSource := Header

  /** The datatype has exactly two distinct members, so a case split on a
      source is exhaustive. */
  function AllSources(): (r: seq<TokenSource>)
    ensures |r| == 2 && r[0] != r[1]
    ensures forall s: TokenSource :: s in r
  {
    var r := [Header, Query];
    assert forall s: TokenSource :: s in r by {
      forall s: TokenSource ensures s in r {
        if s.Header? { assert s == r[0]; } else { assert s == r[1]; }
      }
    }
    r
  }
}
